=== FILE: README.md ===
# depth_image_proc: disparity and XYZI point-cloud callbacks, modelled in Dafny

This project models the decision logic of two nodes from `depth_image_proc`:

- **DisparityNode** turns a depth image plus camera calibration into a
  `DisparityImage`. It builds the metadata first: the depth header and size, a
  zero-filled 32FC1 buffer, `f = P[0]`, `t = -P[3]/P[0]`, and the bounds
  `f·t/max_range` and `f·t/min_range`. It then dispatches on the depth
  encoding (16UC1 or 32FC1) and runs a strided per-pixel loop that writes
  `constant/depth` for every valid sample.
- **PointCloudXyziNode** turns a depth image, an intensity image and camera
  calibration into a PointCloud2. It warns on a frame-id mismatch. When the
  two image sizes differ, it rescales a copy of the calibration and resizes the
  intensity image. It normalises the intensity encoding, lays out the cloud
  (header, size, flags, four FLOAT32 fields) and dispatches the depth and
  intensity conversions.
- Both nodes subscribe to their inputs **on demand**. A matched-count event
  with count 0 unsubscribes every input. A positive count with the depth input
  unsubscribed subscribes every input. Any other event changes nothing.

Modules:

- `Wrappers` (`wrappers.dfy`): `Option` and `Result`.
- `ExtReals` (`ext_real.dfy`): doubles as exact reals plus ±∞ and NaN, with
  IEEE-style `*` and `/`. The defaults `max_range = ∞` and `min_range = 0`
  rely on `x/∞ = 0` and `x/0 = ±∞`.
- `Messages` (`messages.dfy`): headers, images, calibration, encoding names.
- `Subscription` (`subscription.dfy`): the matched-callback state machine.
- `Disparity` (`disparity.dfy`): metadata, the pixel loop (`Convert`, an
  imperative method over an array with row-stride invariants) and the
  callback `DepthCb`, each with a functional reference definition.
- `PointCloudXyzi` (`point_cloud_xyzi.dfy`): the callback `ImageCb` as a pure
  function, parametrised by the guard used at line 179.

Collaborators the model cannot see are parameters:

- the depth traits' `valid` and `toMeters` (`DepthTraits`);
- cv_bridge's share and copy, and `cv::resize` (`Bridge`, each returning an
  `Option` or a success flag).

A failure in a call that sits inside a `try` drops the frame. A failure in a
call outside any `try` (the resize, and the MONO8 copy after it) is an
exception that leaves the callback, modelled as `Aborted`.

When the sizes differ, the code multiplies all eight focal-length and
principal-point entries by the width ratio, including K[4], K[5], P[5] and
P[6] (point_cloud_xyzi.cpp lines 142-149). Only the share (line 154) and the
normalisation (line 181) sit inside a `try`. The row-range crop and resize
(lines 162-164) and the MONO8 copy at line 168 do not.

## Model

| member | source | states |
|---|---|---|
| ExtReals.Div | depth_image_proc/src/disparity.cpp:142-143 | a finite quotient multiplied back by its divisor gives the dividend; a finite value over ±∞ is 0; a finite value over 0 is +∞, −∞ or NaN according to its sign; NaN or ∞/∞ gives NaN |
| ExtReals.Mul | depth_image_proc/src/point_cloud_xyzi.cpp:142-149 | finite products are exact; NaN arises only from a NaN factor or from zero times an infinity |
| ExtReals.Neg | depth_image_proc/src/disparity.cpp:139 | negation keeps finiteness and NaN, swaps the infinities, and a finite value plus its negation is 0 |
| ExtReals.DivMulRoundTrip | depth_image_proc/src/disparity.cpp:139-142 | dividing by a finite non-zero value and multiplying back gives the original value |
| ExtReals.DivDiv | depth_image_proc/src/disparity.cpp:165-175 | dividing by toMeters(1) and then by the sample equals dividing once by their product |
| ExtReals.ScaleUnscale | depth_image_proc/src/point_cloud_xyzi.cpp:142-149 | scaling any value by a positive ratio and then by its reciprocal restores it |
| Subscription.OnMatched | depth_image_proc/src/disparity.cpp:108-120 | count 0 unsubscribes every input; a positive count subscribes every input exactly when depth is unsubscribed, and otherwise changes nothing; channels outside the node's inputs never change |
| Subscription.OnMatchedFollowsDemand | depth_image_proc/src/point_cloud_xyzi.cpp:86-112 | from all-or-none, one event leaves the inputs subscribed if and only if the count is positive |
| Subscription.OnMatchedIdempotent | depth_image_proc/src/disparity.cpp:109-120 | delivering the same count twice: the second delivery changes nothing and never subscribes |
| Subscription.Run | depth_image_proc/src/point_cloud_xyzi.cpp:86-112 | a sequence of events gives one action per event, never touches a channel outside the node's inputs, and keeps the inputs all subscribed or none |
| Subscription.SubscribeOnRisingEdge | depth_image_proc/src/point_cloud_xyzi.cpp:87-112 | over any sequence of counts, a subscribe happens if and only if the count rises from zero, so repeated positive counts never subscribe twice |
| Subscription.RunEndsOnDemand | depth_image_proc/src/disparity.cpp:109-120 | after any sequence of counts the inputs are subscribed if and only if the last count is positive |
| Subscription.DisparityZeroOneZero | depth_image_proc/src/disparity.cpp:108-120 | counts 0, 1, 0 give exactly one subscribe, followed by one unsubscribe |
| Subscription.CloudRepeatedDemand | depth_image_proc/src/point_cloud_xyzi.cpp:86-112 | counts 1, 1, 2 subscribe the three inputs once, then keep them |
| Disparity.LayoutAsWritten | depth_image_proc/src/disparity.cpp:136-137 | the step and the buffer size as computed in 32-bit unsigned arithmetic stay below 2^32 |
| Disparity.LayoutAsWrittenAgrees | depth_image_proc/src/disparity.cpp:136-137 | below 2^32 bytes the 32-bit computation gives step width·4 and a buffer of height·width·4 bytes |
| Disparity.LayoutAsWrittenOverflows | depth_image_proc/src/disparity.cpp:136-137 | a one-row image 2^30 pixels wide gets step 0 and a 0-byte buffer, while the intended output holds 2^30 floats |
| Disparity.Metadata | depth_image_proc/src/disparity.cpp:130-144 | the output copies the depth header and size, is 32FC1 with step width·4, holds one zero float per pixel, and carries f = P[0] and delta_d |
| Disparity.Baseline | depth_image_proc/src/disparity.cpp:138-139 | with P[0] finite and non-zero, t·P[0] = −P[3]; a zero P[0] with a finite non-zero P[3] gives an infinite baseline; a NaN entry gives NaN |
| Disparity.FocalTimesBaseline | depth_image_proc/src/disparity.cpp:138-140 | with P[0] finite and non-zero, f·t is exactly −P[3] |
| Disparity.DefaultDisparityBounds | depth_image_proc/src/disparity.cpp:91-94 | with the default ranges (0, ∞), min_disparity is 0 and max_disparity is the infinity with the sign of −P[3] |
| Disparity.FiniteDisparityBounds | depth_image_proc/src/disparity.cpp:142-143 | with finite positive ranges, min_disparity·max_range and max_disparity·min_range both equal f·t |
| Disparity.DisparityAt | depth_image_proc/src/disparity.cpp:168-181 | output pixel v·width+u comes from input sample v·rowStep+u: constant/depth if the sample is valid, 0 otherwise |
| Disparity.Convert | depth_image_proc/src/disparity.cpp:159-182 | the strided loop leaves exactly the row-major reference image: every one of height·width cells, written where valid and left 0 where not |
| Disparity.PixelConstant | depth_image_proc/src/disparity.cpp:165-166 | with f·t finite and toMeters(1) finite and non-zero, constant·toMeters(1) = f·t; a NaN operand gives NaN |
| Disparity.DisparityOf | depth_image_proc/src/disparity.cpp:146-156 | a result exists exactly for 16UC1 and 32FC1; it is the metadata in every field but the pixel data, and holds one float per pixel |
| Disparity.DepthCb | depth_image_proc/src/disparity.cpp:146-156 | publishes exactly when the encoding is 16UC1 or 32FC1, and then publishes the reference disparity image |
| Disparity.PublishedMetadata | depth_image_proc/src/disparity.cpp:130-144 | a published image has the depth header and size, step width·4, one float per pixel, f = P[0], t = −P[3]/P[0], the two range bounds and delta_d |
| Disparity.MetricDisparity16 | depth_image_proc/src/disparity.cpp:164-175 | for a valid non-zero 16UC1 sample r, the published pixel is f·t/(toMeters(1)·r), i.e. f·t over the depth in metres |
| Disparity.DisparityExample | depth_image_proc/src/disparity.cpp:146-181 | a 1×1 32FC1 frame at 2 m with P[0] = 525 and P[3] = −52.5 (baseline 0.1) is published with the single pixel 26.25 |
| PointCloudXyzi.RescaleInfo | depth_image_proc/src/point_cloud_xyzi.cpp:138-149 | the copy has the depth frame's size; K[0], K[2], K[4], K[5], P[0], P[2], P[5], P[6] are multiplied by the ratio; every other entry and field is unchanged |
| PointCloudXyzi.RescaleRoundTrip | depth_image_proc/src/point_cloud_xyzi.cpp:138-149 | rescaling by r and then by 1/r back to the original size returns the original calibration |
| PointCloudXyzi.HalfWidthDoublesIntrinsics | depth_image_proc/src/point_cloud_xyzi.cpp:141-149 | an intensity frame half the depth width doubles fx and cx in both K and P |
| PointCloudXyzi.WidthRatio | depth_image_proc/src/point_cloud_xyzi.cpp:141 | for a non-zero intensity width, ratio·intensity width = depth width; a zero intensity width gives +∞, or NaN when both widths are 0 |
| PointCloudXyzi.Truncate | depth_image_proc/src/point_cloud_xyzi.cpp:163 | the float-to-int conversion truncates toward zero for positive and negative values, and is defined exactly when the value is finite and its truncation fits in a 32-bit int |
| PointCloudXyzi.CropRows | depth_image_proc/src/point_cloud_xyzi.cpp:163 | for a positive ratio with depth height < 2^31·ratio there is a row count, and it is the t >= 0 with t·ratio <= depth height < (t+1)·ratio; ratio 0 or NaN gives no row count; an infinite ratio gives 0 rows |
| PointCloudXyzi.CropKeepsAllRowsAtSameAspect | depth_image_proc/src/point_cloud_xyzi.cpp:141-164 | in exact arithmetic, an intensity frame with the depth frame's aspect ratio is cropped to all of its own rows |
| PointCloudXyzi.CopyAs | depth_image_proc/src/point_cloud_xyzi.cpp:168 | a successful copy into an encoding has that encoding and the source's header and size |
| PointCloudXyzi.ResizedImage | depth_image_proc/src/point_cloud_xyzi.cpp:159-164 | the resized image keeps the intensity header, encoding and the library's pixel data, and has the depth frame's size |
| PointCloudXyzi.Reconcile | depth_image_proc/src/point_cloud_xyzi.cpp:133-176 | equal sizes keep calibration and image. For different sizes: the frame is dropped exactly when the share fails; the crop aborts exactly when the row count is undefined; the resize aborts exactly when it fails; after a resize a MONO8 or MONO16 image is used as resized, and any other is copied to MONO8, aborting exactly when that copy fails; a success has the rescaled calibration and an image of the depth frame's size |
| PointCloudXyzi.ReconcileCamera | depth_image_proc/src/point_cloud_xyzi.cpp:133-176 | equal sizes keep the received calibration and intensity image; different sizes use the rescaled copy; either way the intensity image ends at the depth frame's size |
| PointCloudXyzi.AsWrittenGuardAlwaysHolds | depth_image_proc/src/point_cloud_xyzi.cpp:179 | the guard `enc != MONO8 \|\| enc != MONO16` holds for every encoding |
| PointCloudXyzi.Normalise | depth_image_proc/src/point_cloud_xyzi.cpp:179-188 | when the guard holds, the result is the MONO8 copy of the input, or a drop for a failed conversion exactly when the copy fails; otherwise the image is used as it is |
| PointCloudXyzi.CloudLayout | depth_image_proc/src/point_cloud_xyzi.cpp:190-204 | the cloud has the depth header and size, is not dense and not big-endian, and has fields x, y, z, intensity, each one FLOAT32 |
| PointCloudXyzi.DepthSamples | depth_image_proc/src/point_cloud_xyzi.cpp:207-215 | 16UC1 runs the uint16_t conversion and 32FC1 the float conversion, and no other encoding has a branch |
| PointCloudXyzi.IntensitySamples | depth_image_proc/src/point_cloud_xyzi.cpp:218-231 | MONO8 runs the uint8_t conversion, MONO16 and 16UC1 the uint16_t one, 32FC1 the float one, and no other encoding has a branch |
| PointCloudXyzi.Process | depth_image_proc/src/point_cloud_xyzi.cpp:133-233 | a reconcile failure is passed on, and any later failure is a drop; the frame publishes exactly when reconciling, normalising, the depth dispatch and the intensity dispatch all succeed; a publication has the cloud layout, the depth conversion for the depth encoding with the reconciled calibration and invalid_depth, and the intensity conversion for the encoding of the reconciled, normalised intensity image it receives |
| PointCloudXyzi.ImageCb | depth_image_proc/src/point_cloud_xyzi.cpp:123-215 | the warning is raised exactly when the frame ids differ; a published frame has the cloud layout and a supported depth encoding; an unsupported depth encoding never publishes |
| PointCloudXyzi.ImageCbAsWritten | depth_image_proc/src/point_cloud_xyzi.cpp:179-225 | with the guard as written, every published frame's intensity image is MONO8 and goes through the uint8_t conversion |
| PointCloudXyzi.ImageCbIntended | depth_image_proc/src/point_cloud_xyzi.cpp:178-225 | with the guard the comment describes, every published frame's intensity image is MONO8 through the uint8_t conversion or MONO16 through the uint16_t one |
| PointCloudXyzi.PublishedCloud | depth_image_proc/src/point_cloud_xyzi.cpp:190-233 | a publication has the cloud layout with the depth header and a supported depth encoding; the depth conversion gets the depth image, reconciled calibration and invalid_depth; the intensity image has the depth frame's size |
| PointCloudXyzi.AsWrittenIntensityIsMono8 | depth_image_proc/src/point_cloud_xyzi.cpp:179-225 | every published frame used a MONO8 intensity image and the 8-bit branch, so the MONO16, 16UC1 and 32FC1 branches are unreachable |
| PointCloudXyzi.AsWrittenSameSizePublishes | depth_image_proc/src/point_cloud_xyzi.cpp:179-233 | frames of equal size are published if and only if the depth encoding is supported and the MONO8 copy succeeds |
| PointCloudXyzi.AsWrittenReducesMono16 | depth_image_proc/src/point_cloud_xyzi.cpp:179-221 | a MONO16 intensity frame of any size is never published as received: it goes through the 8-bit branch or is dropped |
| PointCloudXyzi.IntendedKeepsSupportedIntensity | depth_image_proc/src/point_cloud_xyzi.cpp:178-225 | with the intended guard, a supported depth frame and an intensity frame of its size: MONO8 and MONO16 intensity is used as received in its own branch, and any other encoding publishes if and only if the MONO8 copy succeeds |
| PointCloudXyzi.UnsupportedDepthNeverPublishes | depth_image_proc/src/point_cloud_xyzi.cpp:207-215 | a depth encoding other than 16UC1 or 32FC1 never publishes |
| PointCloudXyzi.FrameIdMismatchOnlyWarns | depth_image_proc/src/point_cloud_xyzi.cpp:123-130 | for frames of equal size, relabelling the intensity frame with the depth frame id clears the warning and, when the MONO8 copy does not depend on the frame id, leaves the publish decision unchanged |

## Findings

| source | as written | input that shows it | evidently intended | confidence | as-written member | corrected member |
|---|---|---|---|---|---|---|
| depth_image_proc/src/disparity.cpp:136-137 | `step = width·sizeof(float)` is stored in a 32-bit field, and `height·step` is a 32-bit unsigned product, so both wrap modulo 2^32 | height 1, width 2^30: step 0 and a 0-byte buffer, while the loop writes 2^30 floats | step = width·4 and a buffer of height·width·4 bytes | not executed; only images of 4 GiB or more are affected | Disparity.LayoutAsWrittenOverflows | Disparity.Metadata |
| depth_image_proc/src/point_cloud_xyzi.cpp:179 | `enc != MONO8 \|\| enc != MONO16` is always true, so every intensity image is converted to MONO8 | a MONO16 intensity frame is reduced to 8 bits | convert only when the encoding is neither MONO8 nor MONO16, as the comment on line 178 says | not executed; medium | PointCloudXyzi.AsWrittenReducesMono16 | PointCloudXyzi.IntendedKeepsSupportedIntensity |

`Disparity.Metadata`, and so `DepthCb`, use the unbounded layout: step
width·4 and one float per pixel. The 32-bit layout agrees with it whenever the
buffer stays below 2^32 bytes (`LayoutAsWrittenAgrees`).
For line 179, `ImageCb` takes the guard as a parameter:

- `ImageCbAsWritten` is the code's behaviour.
- `ImageCbIntended` is the corrected behaviour.

## Left out

- The message synchronisers: exact-time for disparity, approximate-time for
  the point cloud, and the `queue_size` parameter. They are library code; each
  callback is modelled as receiving one matched tuple.
- ROS plumbing: node construction, parameter declaration, publishers, topic
  name resolution, transport hints, QoS and component registration. These are
  I/O and framework wiring.
- The connect mutex: each matched callback is one atomic transition. The
  disparity node reads `get_subscription_count()` and the point-cloud node
  reads `current_count`; both are modelled as the count parameter.
- The bodies of `convertDepth`, `convertIntensity` and the depth traits are
  not part of this model. `valid` and `toMeters` are parameters. The cloud's
  point data, field offsets and point step are not modelled; the model records
  the arguments each conversion receives.
- cv_bridge and `cv::resize` are opaque `Bridge` functions. The resampling
  itself is not modelled. The model assumes that a copy into an encoding has
  that encoding and its source's header and size, and that a resize result
  has the requested size.
- The reinterpretation of the byte buffer: an image carries its data read as
  16-bit words and as 32-bit floats. Byte order is not modelled.
- IEEE rounding, float32 narrowing (of `f`, `t`, the ratio and the loop
  constant) and the sign of zero are not modelled. Reals are exact, and a zero
  divisor counts as +0.
- A crop row count that is not finite (ratio 0 or NaN), or whose truncation
  does not fit in an int (depth height 2^16 with ratio 2^-15 gives 2^31), is
  undefined behaviour in the code. The model treats it as an abort.
- `static_cast<int>` of height and width in the pixel loop. Negative values
  would only arise for dimensions of 2^31 or more, beyond the 2^32-byte limit
  the layout finding already covers.
- The rescaled calibration stays in the node's camera model when a later step
  drops the frame. The next callback resets it at line 133, so this is not
  observable.
- Throttled logging: the frame-id warning is a flag.
- Disparity.Convert: requires a well-formed image. At least `width` samples fit
  in one row of `step` bytes, and the buffer holds `height` such rows. The
  code checks neither. The model does not cover a short buffer, which the
  code reads out of bounds. It also does not cover `step` smaller than
  width·sizeof(T), where the code reads overlapping rows.
- Disparity.DisparityOf: requires the same well-formed image, a valid
  sensor_msgs Image, for the same reason.
- Disparity.DepthCb: requires the same well-formed image, for the same reason.
- PointCloudXyzi.CropKeepsAllRowsAtSameAspect: holds in exact arithmetic
  only. The code computes the ratio (line 141) and the row count (line 163)
  in float32 and truncates. For depth 768×576 and intensity 640×480, both 4:3,
  the ratio is 1.2f = 1.20000005 and 576 / 1.2f rounds to 479.99997. The crop
  then keeps 479 of the 480 rows. Depth 1024×768 with intensity 960×720 gives
  719 rows the same way. The model has no float32 rounding, so it does not show
  this lost row.
- Disparity.MetricDisparity16: states the metric reading for the 16UC1 path
  only. For 32FC1, `Disparity.DisparityAt` gives constant/depth directly.
- PointCloudXyzi.FrameIdMismatchOnlyWarns: states the publish decision for
  frames of equal size only, where the cv_bridge copy is the only collaborator
  that sees the header.

=== FILE: disparity.dfy ===
/** The disparity node's frame callback: it builds the output metadata from the
    calibration and the range parameters, then converts every valid depth sample
    to the disparity f·t/depth. */
module Disparity {
  import opened ExtReals
  import opened Wrappers
  import opened Messages

  /** The node's range and quantisation parameters (queue_size only sizes the
      synchroniser, which is not modelled). */
  datatype Params = Params(minRange: ExtReal, maxRange: ExtReal, deltaD: ExtReal)

  /** min_range 0, max_range +∞, delta_d 0.125. */
  const Defaults: Params := Params(Zero, PosInf, Finite(0.125))

  /** A 32FC1 image; `data` holds one float per pixel, `step` is in bytes. */
  datatype FloatImage = FloatImage(
    header: Header,
    height: nat,
    width: nat,
    encoding: string,
    step: nat,
    data: seq<ExtReal>)

  datatype DisparityImage = DisparityImage(
    header: Header,
    image: FloatImage,
    f: ExtReal,
    t: ExtReal,
    minDisparity: ExtReal,
    maxDisparity: ExtReal,
    deltaD: ExtReal)

  /** The per-type depth traits: which samples are valid and their metric value.
      Their definitions are not part of this model. */
  datatype DepthTraits<!T> = DepthTraits(valid: T -> bool, toMeters: T -> ExtReal)

  const FLOAT_SIZE: nat := 4
  const U32_LIMIT: nat := 0x1_0000_0000

  // ---------------------------------------------------------------------------
  // Output layout

  /** Row length and buffer size as the callback computes them: `step` is a
      32-bit field, and `height * step` is a product of two 32-bit unsigned
      values, so both wrap modulo 2^32. */
  function LayoutAsWritten(height: nat, width: nat): (r: (nat, nat))
    ensures r.0 < U32_LIMIT && r.1 < U32_LIMIT
  {
    var step := (width * FLOAT_SIZE) % U32_LIMIT;
    (step, (height * step) % U32_LIMIT)
  }

  /** Below 2^32 bytes the callback's layout is the intended one: a row of
      width floats and a buffer of height such rows. */
  lemma LayoutAsWrittenAgrees(height: nat, width: nat)
    requires width * FLOAT_SIZE < U32_LIMIT
    requires height * width * FLOAT_SIZE < U32_LIMIT
    ensures LayoutAsWritten(height, width) == (width * FLOAT_SIZE, height * width * FLOAT_SIZE)
  {
    var step := width * FLOAT_SIZE;
    assert step % U32_LIMIT == step;
    assert height * step == height * width * FLOAT_SIZE;
    assert (height * step) % U32_LIMIT == height * step;
  }

  /** A one-row image 2^30 pixels wide gets a zero row length and a zero-byte
      buffer, while the intended output holds one float for each of its 2^30
      pixels, which the pixel loop writes. */
  lemma LayoutAsWrittenOverflows(depth: Image, info: CameraInfo, params: Params)
    requires depth.height == 1 && depth.width == 0x4000_0000
    ensures LayoutAsWritten(depth.height, depth.width) == (0, 0)
    ensures |Metadata(depth, info, params).image.data| == 0x4000_0000
  {
  }

  // ---------------------------------------------------------------------------
  // Metadata

  /** f is the focal length P[0] of the projection matrix. */
  function Focal(info: CameraInfo): ExtReal {
    info.p[0]
  }

  /** t is the baseline -P[3]/P[0] (P[3] is -f·Tx). */
  function Baseline(info: CameraInfo): (t: ExtReal)
    ensures info.p[0].Finite? && info.p[0].v != 0.0 && info.p[3].Finite? ==>
              t.Finite? && t.v * info.p[0].v + info.p[3].v == 0.0
    ensures info.p[0] == Zero && info.p[3].Finite? && info.p[3].v != 0.0 ==> IsInfinite(t)
    ensures info.p[0].NaN? || info.p[3].NaN? ==> t.NaN?
  {
    Div(Neg(info.p[3]), info.p[0])
  }

  /** The output before conversion: depth header and size, a zero-filled float
      buffer, f and t from the calibration, and the disparity bounds f·t/max_range
      and f·t/min_range. */
  function Metadata(depth: Image, info: CameraInfo, params: Params): (d: DisparityImage)
    ensures d.header == depth.header && d.image.header == depth.header
    ensures d.image.encoding == TYPE_32FC1
    ensures d.image.height == depth.height && d.image.width == depth.width
    ensures d.image.step == depth.width * FLOAT_SIZE
    ensures |d.image.data| * FLOAT_SIZE == d.image.height * d.image.step
    ensures forall i :: 0 <= i < |d.image.data| ==> d.image.data[i] == Zero
    ensures d.f == info.p[0]
    ensures d.deltaD == params.deltaD
  {
    var f := Focal(info);
    var t := Baseline(info);
    DisparityImage(
      depth.header,
      FloatImage(depth.header, depth.height, depth.width, TYPE_32FC1, depth.width * FLOAT_SIZE,
                 seq(depth.height * depth.width, _ => Zero)),
      f, t,
      Div(Mul(f, t), params.maxRange),
      Div(Mul(f, t), params.minRange),
      params.deltaD)
  }

  /** With a finite non-zero focal length, f·t is exactly -P[3]: the product the
      bounds and the pixel values divide does not depend on P[0]. */
  lemma FocalTimesBaseline(info: CameraInfo)
    requires info.p[0].Finite? && info.p[0].v != 0.0 && info.p[3].Finite?
    ensures Mul(Focal(info), Baseline(info)) == Neg(info.p[3])
  {
    DivMulRoundTrip(Neg(info.p[3]), info.p[0]);
  }

  /** With the default parameters and finite calibration with P[0] ≠ 0 and
      P[3] ≠ 0: min_disparity is 0 and max_disparity is the infinity with the
      sign of -P[3]. */
  lemma DefaultDisparityBounds(depth: Image, info: CameraInfo)
    requires info.p[0].Finite? && info.p[0].v != 0.0
    requires info.p[3].Finite? && info.p[3].v != 0.0
    ensures Metadata(depth, info, Defaults).minDisparity == Zero
    ensures Metadata(depth, info, Defaults).maxDisparity == Infinity(info.p[3].v < 0.0)
  {
    FocalTimesBaseline(info);
  }

  /** With finite positive range bounds, the bounds times the ranges give back
      f·t: min_disparity·max_range = max_disparity·min_range = f·t. */
  lemma FiniteDisparityBounds(depth: Image, info: CameraInfo, params: Params)
    requires info.p[0].Finite? && info.p[0].v != 0.0 && info.p[3].Finite?
    requires params.minRange.Finite? && params.minRange.v > 0.0
    requires params.maxRange.Finite? && params.maxRange.v > 0.0
    ensures var d := Metadata(depth, info, params);
            && d.minDisparity.Finite? && d.maxDisparity.Finite?
            && d.minDisparity.v * params.maxRange.v == -info.p[3].v
            && d.maxDisparity.v * params.minRange.v == -info.p[3].v
  {
    FocalTimesBaseline(info);
  }

  // ---------------------------------------------------------------------------
  // Pixel conversion

  /** The value written for one raw sample: constant/depth when the sample is
      valid, the zero the buffer was filled with otherwise. */
  function PixelDisparity<T>(valid: T -> bool, asFloat: T -> ExtReal, constant: ExtReal, sample: T): ExtReal {
    if valid(sample) then Div(constant, asFloat(sample)) else Zero
  }

  /** A buffer read as `height` rows of `width` samples, rows `rowStep` samples apart. */
  predicate Strided<T>(data: seq<T>, height: nat, width: nat, rowStep: nat) {
    width <= rowStep && height * rowStep <= |data|
  }

  /** Where output pixel `k` (row-major) is read from in the strided input. */
  function SourceIndex(k: nat, width: nat, rowStep: nat): nat
    requires width > 0
  {
    (k / width) * rowStep + k % width
  }

  lemma MulMonotone(a: nat, b: nat, c: nat)
    requires a <= b
    ensures a * c <= b * c
  {
  }

  /** Output pixel (v, u) of a row-major image is pixel v·width + u, and back. */
  lemma RowMajorIndex(v: nat, u: nat, width: nat)
    requires u < width
    ensures (v * width + u) / width == v
    ensures (v * width + u) % width == u
  {
    var k := v * width + u;
    var q := k / width;
    var r := k % width;
    assert q * width + r == v * width + u;
    if q < v {
      MulMonotone(q + 1, v, width);
      assert false;
    } else if q > v {
      MulMonotone(v + 1, q, width);
      assert false;
    }
  }

  /** Row v < height starts at v·rowStep, and a row holds at most rowStep samples. */
  lemma RowInBounds(v: nat, u: nat, height: nat, width: nat, rowStep: nat)
    requires v < height && u < width <= rowStep
    ensures v * rowStep + u < height * rowStep
    ensures v * width + u < height * width
  {
    MulMonotone(v + 1, height, rowStep);
    MulMonotone(v + 1, height, width);
  }

  lemma SourceIndexInBounds(k: nat, height: nat, width: nat, rowStep: nat)
    requires 0 < width <= rowStep && k < height * width
    ensures SourceIndex(k, width, rowStep) < height * rowStep
  {
    var q := k / width;
    if q >= height {
      MulMonotone(height, q, width);
      assert false;
    }
    RowInBounds(q, k % width, height, width, rowStep);
  }

  /** Input sample (v, u): element v·rowStep + u of the strided buffer. */
  function SampleAt<T>(data: seq<T>, height: nat, width: nat, rowStep: nat, v: nat, u: nat): T
    requires Strided(data, height, width, rowStep) && v < height && u < width
  {
    RowInBounds(v, u, height, width, rowStep);
    data[v * rowStep + u]
  }

  /** The converted image, pixel by pixel in row-major order. */
  function ExpectedDisparity<T>(data: seq<T>, height: nat, width: nat, rowStep: nat,
                                valid: T -> bool, asFloat: T -> ExtReal, constant: ExtReal): (r: seq<ExtReal>)
    requires Strided(data, height, width, rowStep)
    ensures |r| == height * width
  {
    seq(height * width, k requires 0 <= k < height * width =>
      SourceIndexInBounds(k, height, width, rowStep);
      PixelDisparity(valid, asFloat, constant, data[SourceIndex(k, width, rowStep)]))
  }

  /** Output pixel v·width + u is the disparity of input sample v·rowStep + u:
      constant/depth when that sample is valid, and 0 when it is not. */
  lemma DisparityAt<T>(data: seq<T>, height: nat, width: nat, rowStep: nat,
                       valid: T -> bool, asFloat: T -> ExtReal, constant: ExtReal, v: nat, u: nat)
    requires Strided(data, height, width, rowStep)
    requires v < height && u < width
    ensures v * width + u < height * width && v * rowStep + u < |data|
    ensures var out := ExpectedDisparity(data, height, width, rowStep, valid, asFloat, constant);
            && out[v * width + u] == PixelDisparity(valid, asFloat, constant, data[v * rowStep + u])
            && SourceIndex(v * width + u, width, rowStep) == v * rowStep + u
            && (valid(data[v * rowStep + u]) ==> out[v * width + u] == Div(constant, asFloat(data[v * rowStep + u])))
            && (!valid(data[v * rowStep + u]) ==> out[v * width + u] == Zero)
  {
    RowInBounds(v, u, height, width, rowStep);
    RowMajorIndex(v, u, width);
  }

  /** The per-pixel loop over a strided input: one pass over the rows, a
      running output index that advances by one per pixel, and an input row
      offset that advances by rowStep per row. Only valid samples are written;
      the rest keep the zero the buffer was filled with. */
  method Convert<T>(data: seq<T>, height: nat, width: nat, rowStep: nat,
                    valid: T -> bool, asFloat: T -> ExtReal, constant: ExtReal)
    returns (out: seq<ExtReal>)
    requires Strided(data, height, width, rowStep)
    ensures out == ExpectedDisparity(data, height, width, rowStep, valid, asFloat, constant)
  {
    ghost var expected := ExpectedDisparity(data, height, width, rowStep, valid, asFloat, constant);
    var disp := new ExtReal[height * width](_ => Zero);
    var row: nat := 0;
    var cur: nat := 0;
    var v: nat := 0;
    while v < height
      invariant v <= height
      invariant row == v * rowStep && cur == v * width
      invariant disp.Length == height * width && cur <= disp.Length
      invariant forall k :: 0 <= k < cur ==> disp[k] == expected[k]
      invariant forall k :: cur <= k < disp.Length ==> disp[k] == Zero
    {
      var u: nat := 0;
      while u < width
        invariant u <= width
        invariant cur == v * width + u && cur <= disp.Length
        invariant forall k :: 0 <= k < cur ==> disp[k] == expected[k]
        invariant forall k :: cur <= k < disp.Length ==> disp[k] == Zero
      {
        DisparityAt(data, height, width, rowStep, valid, asFloat, constant, v, u);
        var sample := data[row + u];
        if valid(sample) {
          disp[cur] := Div(constant, asFloat(sample));
        }
        assert disp[cur] == expected[cur];
        cur := cur + 1;
        u := u + 1;
      }
      MulMonotone(v + 1, height, width);
      row := row + rowStep;
      v := v + 1;
    }
    out := disp[..];
  }

  // ---------------------------------------------------------------------------
  // The frame callback

  /** The 16UC1 sample as a float. */
  function WordValue(n: U16): ExtReal {
    Finite(n as real)
  }

  /** The 32FC1 sample is already a float. */
  function FloatValue(x: ExtReal): ExtReal {
    x
  }

  /** Float traits for examples: a sample is valid when it is finite, and is
      already in metres. */
  const FloatTraits: DepthTraits<ExtReal> := DepthTraits((x: ExtReal) => x.Finite?, FloatValue)

  /** The loop constant f·t / toMeters(1). */
  function PixelConstant(meta: DisparityImage, unitScaling: ExtReal): (c: ExtReal)
    ensures Mul(meta.f, meta.t).Finite? && unitScaling.Finite? && unitScaling.v != 0.0 ==>
              c.Finite? && c.v * unitScaling.v == Mul(meta.f, meta.t).v
    ensures Mul(meta.f, meta.t).NaN? || unitScaling.NaN? ==> c.NaN?
  {
    Div(Mul(meta.f, meta.t), unitScaling)
  }

  /** What the callback demands of a depth image in a supported encoding: its
      buffer, read as that encoding's samples, holds `height` rows of `step`
      bytes, and a row holds at least `width` samples. */
  predicate WellFormedDepth(depth: Image) {
    && (depth.encoding == TYPE_16UC1 ==> Strided(depth.data.words, depth.height, depth.width, depth.step / 2))
    && (depth.encoding == TYPE_32FC1 ==> Strided(depth.data.floats, depth.height, depth.width, depth.step / 4))
  }

  /** The disparity image the callback publishes, or None when it returns
      without publishing. */
  function DisparityOf(depth: Image, info: CameraInfo, params: Params,
                       u16: DepthTraits<U16>, f32: DepthTraits<ExtReal>): (r: Option<DisparityImage>)
    requires WellFormedDepth(depth)
    ensures r.Some? <==> SupportedDepthEncoding(depth.encoding)
    ensures r.Some? ==>
              var meta := Metadata(depth, info, params);
              && r.value.(image := meta.image) == meta
              && r.value.image.(data := meta.image.data) == meta.image
              && |r.value.image.data| == depth.height * depth.width
  {
    var meta := Metadata(depth, info, params);
    if depth.encoding == TYPE_16UC1 then
      var data := ExpectedDisparity(depth.data.words, depth.height, depth.width, depth.step / 2,
                                    u16.valid, WordValue, PixelConstant(meta, u16.toMeters(1)));
      Some(meta.(image := meta.image.(data := data)))
    else if depth.encoding == TYPE_32FC1 then
      var data := ExpectedDisparity(depth.data.floats, depth.height, depth.width, depth.step / 4,
                                    f32.valid, FloatValue, PixelConstant(meta, f32.toMeters(Finite(1.0))));
      Some(meta.(image := meta.image.(data := data)))
    else
      None
  }

  /** The frame callback: metadata, dispatch on the depth encoding, pixel loop,
      and one publication on the supported paths. */
  method DepthCb(depth: Image, info: CameraInfo, params: Params,
                 u16: DepthTraits<U16>, f32: DepthTraits<ExtReal>)
    returns (published: Option<DisparityImage>)
    requires WellFormedDepth(depth)
    ensures published.Some? <==> SupportedDepthEncoding(depth.encoding)
    ensures published == DisparityOf(depth, info, params, u16, f32)
  {
    var meta := Metadata(depth, info, params);
    if depth.encoding == TYPE_16UC1 {
      var data := Convert(depth.data.words, depth.height, depth.width, depth.step / 2,
                             u16.valid, WordValue, PixelConstant(meta, u16.toMeters(1)));
      published := Some(meta.(image := meta.image.(data := data)));
    } else if depth.encoding == TYPE_32FC1 {
      var data := Convert(depth.data.floats, depth.height, depth.width, depth.step / 4,
                             f32.valid, FloatValue, PixelConstant(meta, f32.toMeters(Finite(1.0))));
      published := Some(meta.(image := meta.image.(data := data)));
    } else {
      published := None;
    }
  }

  /** The published image keeps the metadata: depth header and size, a float
      per pixel, f = P[0], t = -P[3]/P[0], the range bounds and delta_d. */
  lemma PublishedMetadata(depth: Image, info: CameraInfo, params: Params,
                          u16: DepthTraits<U16>, f32: DepthTraits<ExtReal>)
    requires WellFormedDepth(depth)
    ensures var r := DisparityOf(depth, info, params, u16, f32);
            r.Some? ==>
              && r.value.header == depth.header
              && r.value.image.height == depth.height && r.value.image.width == depth.width
              && r.value.image.step == depth.width * FLOAT_SIZE
              && |r.value.image.data| * FLOAT_SIZE == r.value.image.height * r.value.image.step
              && r.value.f == info.p[0]
              && r.value.t == Div(Neg(info.p[3]), info.p[0])
              && r.value.minDisparity == Div(Mul(r.value.f, r.value.t), params.maxRange)
              && r.value.maxDisparity == Div(Mul(r.value.f, r.value.t), params.minRange)
              && r.value.deltaD == params.deltaD
  {
  }

  /** On the 16UC1 path the published pixels are the reference image of the
      words, with the constant f·t / toMeters(1). */
  lemma PublishedWords(depth: Image, info: CameraInfo, params: Params,
                       u16: DepthTraits<U16>, f32: DepthTraits<ExtReal>)
    requires WellFormedDepth(depth) && depth.encoding == TYPE_16UC1
    ensures DisparityOf(depth, info, params, u16, f32).value.image.data ==
              ExpectedDisparity(depth.data.words, depth.height, depth.width, depth.step / 2, u16.valid,
                                WordValue, Div(Mul(Focal(info), Baseline(info)), u16.toMeters(1)))
  {
    var meta := Metadata(depth, info, params);
    assert meta.f == Focal(info) && meta.t == Baseline(info);
  }

  /** For a valid 16UC1 sample r with finite f·t and a finite non-zero unit
      scale, the published pixel is f·t / (toMeters(1)·r): f·t over the depth
      in metres. */
  lemma MetricDisparity16(depth: Image, info: CameraInfo, params: Params,
                          u16: DepthTraits<U16>, f32: DepthTraits<ExtReal>, v: nat, u: nat)
    requires WellFormedDepth(depth) && depth.encoding == TYPE_16UC1
    requires v < depth.height && u < depth.width
    requires var r := SampleAt(depth.data.words, depth.height, depth.width, depth.step / 2, v, u);
             u16.valid(r) && r != 0
    requires Mul(Focal(info), Baseline(info)).Finite?
    requires u16.toMeters(1).Finite? && u16.toMeters(1).v != 0.0
    ensures var r := SampleAt(depth.data.words, depth.height, depth.width, depth.step / 2, v, u);
            var out := DisparityOf(depth, info, params, u16, f32).value.image.data;
            v * depth.width + u < |out| &&
            out[v * depth.width + u] == Div(Mul(Focal(info), Baseline(info)), Mul(u16.toMeters(1), WordValue(r)))
  {
    PublishedWords(depth, info, params, u16, f32);
    MetricPixel(depth.data.words, depth.height, depth.width, depth.step / 2, u16.valid, WordValue,
                Mul(Focal(info), Baseline(info)), u16.toMeters(1), v, u);
  }

  /** A pixel of the reference image whose constant is num / unit, for a valid
      sample with a finite non-zero value, is num / (unit · value). */
  lemma MetricPixel<T>(data: seq<T>, height: nat, width: nat, rowStep: nat,
                       valid: T -> bool, asFloat: T -> ExtReal, num: ExtReal, unit: ExtReal, v: nat, u: nat)
    requires Strided(data, height, width, rowStep) && v < height && u < width
    requires valid(SampleAt(data, height, width, rowStep, v, u))
    requires asFloat(SampleAt(data, height, width, rowStep, v, u)).Finite?
    requires asFloat(SampleAt(data, height, width, rowStep, v, u)).v != 0.0
    requires num.Finite? && unit.Finite? && unit.v != 0.0
    ensures var out := ExpectedDisparity(data, height, width, rowStep, valid, asFloat, Div(num, unit));
            v * width + u < |out| &&
            out[v * width + u] == Div(num, Mul(unit, asFloat(SampleAt(data, height, width, rowStep, v, u))))
  {
    var x := asFloat(SampleAt(data, height, width, rowStep, v, u));
    DisparityAt(data, height, width, rowStep, valid, asFloat, Div(num, unit), v, u);
    DivDiv(num, unit, x);
  }

  /** A 1×1 32FC1 frame 2 m away, seen by a camera with focal length 525 and
      P[3] = -52.5 (baseline 0.1), is published with disparity 26.25. */
  lemma DisparityExample(header: Header, info: CameraInfo, u16: DepthTraits<U16>)
    requires info.p[0] == Finite(525.0) && info.p[3] == Finite(-52.5)
    ensures var depth := Image(header, 1, 1, TYPE_32FC1, 4, Buffer([], [Finite(2.0)]));
            && WellFormedDepth(depth)
            && DisparityOf(depth, info, Defaults, u16, FloatTraits).value.image.data == [Finite(26.25)]
  {
    var depth := Image(header, 1, 1, TYPE_32FC1, 4, Buffer([], [Finite(2.0)]));
    FocalTimesBaseline(info);
    var constant := PixelConstant(Metadata(depth, info, Defaults), Finite(1.0));
    DisparityAt(depth.data.floats, 1, 1, 1, FloatTraits.valid, FloatValue, constant, 0, 0);
  }
}

=== FILE: ext_real.dfy ===
/** The double-precision values the callbacks compute with, taken as exact reals
    extended with the two infinities and NaN. Rounding and the sign of zero are
    not modelled; a zero divisor is the positive zero the range defaults use. */
module ExtReals {

  datatype ExtReal = Finite(v: real) | PosInf | NegInf | NaN

  const Zero: ExtReal := Finite(0.0)

  predicate IsInfinite(x: ExtReal) {
    x.PosInf? || x.NegInf?
  }

  /** The infinity with the given sign. */
  function Infinity(positive: bool): (r: ExtReal)
    ensures IsInfinite(r)
    ensures r.PosInf? <==> positive
  {
    if positive then PosInf else NegInf
  }

  /** Unary minus. */
  function Neg(x: ExtReal): (r: ExtReal)
    ensures r.Finite? <==> x.Finite?
    ensures x.Finite? ==> r.v + x.v == 0.0
    ensures r.NaN? <==> x.NaN?
    ensures r.PosInf? <==> x.NegInf?
  {
    match x
    case Finite(a) => Finite(-a)
    case PosInf => NegInf
    case NegInf => PosInf
    case NaN => NaN
  }

  /** Multiplication: a zero times an infinity is NaN, otherwise signs multiply. */
  function Mul(a: ExtReal, b: ExtReal): (r: ExtReal)
    ensures a.Finite? && b.Finite? ==> r.Finite? && r.v == a.v * b.v
    ensures a.NaN? || b.NaN? ==> r.NaN?
    ensures r.NaN? && !a.NaN? && !b.NaN? ==>
              (a == Zero && IsInfinite(b)) || (b == Zero && IsInfinite(a))
  {
    if a.NaN? || b.NaN? then NaN
    else if a.Finite? && b.Finite? then Finite(a.v * b.v)
    else if a.Finite? then (if a.v == 0.0 then NaN else Infinity((a.v > 0.0) == b.PosInf?))
    else if b.Finite? then (if b.v == 0.0 then NaN else Infinity((b.v > 0.0) == a.PosInf?))
    else Infinity(a.PosInf? == b.PosInf?)
  }

  /** Division: x/∞ is 0, x/0 is an infinity with the sign of x, 0/0 and ∞/∞ are NaN. */
  function Div(a: ExtReal, b: ExtReal): (r: ExtReal)
    ensures a.Finite? && b.Finite? && b.v != 0.0 ==> r.Finite? && r.v * b.v == a.v
    ensures a.Finite? && IsInfinite(b) ==> r == Zero
    ensures a.Finite? && b == Zero ==>
              && (r == PosInf <==> a.v > 0.0)
              && (r == NegInf <==> a.v < 0.0)
              && (r == NaN <==> a.v == 0.0)
    ensures a.NaN? || b.NaN? || (IsInfinite(a) && IsInfinite(b)) ==> r.NaN?
  {
    if a.NaN? || b.NaN? then NaN
    else if a.Finite? && b.Finite? then
      if b.v != 0.0 then Finite(a.v / b.v)
      else if a.v == 0.0 then NaN
      else Infinity(a.v > 0.0)
    else if a.Finite? then Zero
    else if b.Finite? then Infinity(a.PosInf? == (b.v >= 0.0))
    else NaN
  }

  /** Dividing by a finite non-zero value and multiplying back gives the dividend. */
  lemma DivMulRoundTrip(a: ExtReal, b: ExtReal)
    requires a.Finite? && b.Finite? && b.v != 0.0
    ensures Mul(Div(a, b), b) == a
  {
  }

  /** Two successive finite divisions are one division by the product. */
  lemma DivDiv(a: ExtReal, b: ExtReal, c: ExtReal)
    requires a.Finite? && b.Finite? && c.Finite? && b.v != 0.0 && c.v != 0.0
    ensures Div(Div(a, b), c) == Div(a, Mul(b, c))
  {
    var q := Div(a, b).v;
    assert q * b.v == a.v;
    var q2 := Div(Div(a, b), c).v;
    assert q2 * c.v == q;
    var q3 := Div(a, Mul(b, c)).v;
    assert q3 * (b.v * c.v) == a.v;
    assert q2 * (b.v * c.v) == a.v by {
      calc {
        q2 * (b.v * c.v);
        (q2 * c.v) * b.v;
        q * b.v;
      }
    }
    assert (q2 - q3) * (b.v * c.v) == 0.0;
  }

  /** Scaling by a positive finite factor and then by its reciprocal restores
      every value, infinities and NaN included. */
  lemma {:induction false} ScaleUnscale(x: ExtReal, r: real)
    requires r > 0.0
    ensures Mul(Mul(x, Finite(r)), Finite(1.0 / r)) == x
  {
    match x
    case Finite(a) =>
      assert a * r * (1.0 / r) == a;
    case PosInf =>
    case NegInf =>
    case NaN =>
  }
}

=== FILE: messages.dfy ===
/** The message records the two callbacks read and write: images, calibration,
    and the encoding names they dispatch on. Only the fields the callbacks touch
    are kept. */
module Messages {
  import opened ExtReals

  /** Time stamp and coordinate frame of a message. */
  datatype Header = Header(stamp: int, frameId: string)

  /** An unsigned 16-bit depth sample (millimetres in the 16UC1 encoding). */
  type U16 = n: nat | n < 0x1_0000

  /** The data buffer of an image as the callbacks read it through a
      reinterpret_cast: as 16-bit words or as 32-bit floats. */
  datatype Buffer = Buffer(words: seq<U16>, floats: seq<ExtReal>)

  /** A raw image: `step` is the row length in bytes. */
  datatype Image = Image(
    header: Header,
    height: nat,
    width: nat,
    encoding: string,
    step: nat,
    data: Buffer)

  /** A row-major 3×3 matrix (the intrinsic matrix K and rectification R). */
  type Mat3 = s: seq<ExtReal> | |s| == 9
    witness [Zero, Zero, Zero, Zero, Zero, Zero, Zero, Zero, Zero]

  /** A row-major 3×4 matrix (the projection matrix P). */
  type Mat34 = s: seq<ExtReal> | |s| == 12
    witness [Zero, Zero, Zero, Zero, Zero, Zero, Zero, Zero, Zero, Zero, Zero, Zero]

  /** Calibration of one camera; binning and region of interest are not modelled. */
  datatype CameraInfo = CameraInfo(
    header: Header,
    height: nat,
    width: nat,
    distortionModel: string,
    d: seq<ExtReal>,
    k: Mat3,
    r: Mat3,
    p: Mat34)

  const MONO8: string := "mono8"
  const MONO16: string := "mono16"
  const TYPE_16UC1: string := "16UC1"
  const TYPE_32FC1: string := "32FC1"

  /** The two depth encodings both callbacks accept. */
  predicate SupportedDepthEncoding(encoding: string) {
    encoding == TYPE_16UC1 || encoding == TYPE_32FC1
  }
}

=== FILE: point_cloud_xyzi.dfy ===
/** The point-cloud node's frame callback: it reconciles the intensity frame
    with the depth frame (rescaled calibration, resized intensity), normalises
    the intensity encoding, lays out the output cloud and dispatches the depth
    and intensity conversions. The conversions themselves and the image library
    are opaque collaborators. */
module PointCloudXyzi {
  import opened ExtReals
  import opened Wrappers
  import opened Messages

  /** The image-library calls the callback makes, as opaque functions that may
      fail: sharing an image in its own encoding, resizing rows [0, rows) of an
      image to width × height, and copying an image into another encoding. */
  datatype Bridge = Bridge(
    share: Image -> bool,
    resize: (Image, int, nat, nat) -> Option<Image>,
    copy: (Image, string) -> Option<Image>)

  /** Frames dropped with an error message (a library exception that is caught,
      or a dispatch that finds no branch). */
  datatype DropReason =
    | IntensityShareFailed
    | IntensityConversionFailed
    | UnsupportedDepthEncoding
    | UnsupportedIntensityEncoding

  /** Failures outside any try block: the exception leaves the callback. The
      crop row count is a float converted to int; when it is not finite the
      conversion is undefined, which the model counts as an abort as well. */
  datatype AbortReason = CropUndefined | ResizeFailed | ResizeCopyFailed

  datatype Stop = Dropped(drop: DropReason) | Aborted(abort: AbortReason)

  /** The sample type a conversion template is instantiated with. */
  datatype SampleType = UInt8 | UInt16 | Float32

  const FLOAT32: nat := 7

  datatype PointField = PointField(name: string, dataType: nat, count: nat)

  /** The cloud record before its points are filled in; offsets, point step and
      the point buffer are set by the library and are not modelled. */
  datatype PointCloud = PointCloud(
    header: Header,
    height: nat,
    width: nat,
    isDense: bool,
    isBigendian: bool,
    fields: seq<PointField>)

  /** The arguments handed to the unseen depth conversion. */
  datatype DepthCall = DepthCall(samples: SampleType, image: Image, camera: CameraInfo, invalidDepth: ExtReal)

  /** The arguments handed to the unseen intensity conversion. */
  datatype IntensityCall = IntensityCall(samples: SampleType, image: Image)

  /** A published frame: the cloud and the two conversions that filled it. */
  datatype Publication = Publication(cloud: PointCloud, depthCall: DepthCall, intensityCall: IntensityCall)

  /** Whether the frame-id warning was logged, and what became of the frame. */
  datatype CallbackResult = CallbackResult(frameIdWarning: bool, outcome: Result<Publication, Stop>)

  /** The calibration and intensity image the cloud is computed from. */
  datatype Reconciled = Reconciled(camera: CameraInfo, intensity: Image)

  // ---------------------------------------------------------------------------
  // Calibration rescaling

  /** The width ratio, computed in float from the two widths. */
  function WidthRatio(depth: Image, intensity: Image): (r: ExtReal)
    ensures intensity.width > 0 ==> r.Finite? && r.v * (intensity.width as real) == depth.width as real
    ensures intensity.width == 0 ==> r == (if depth.width > 0 then PosInf else NaN)
  {
    Div(Finite(depth.width as real), Finite(intensity.width as real))
  }

  /** A copy of the calibration for the depth frame's size: width and height
      replaced, K[0], K[2], K[4], K[5], P[0], P[2], P[5], P[6] multiplied by the
      ratio, everything else as it was. */
  function RescaleInfo(info: CameraInfo, width: nat, height: nat, ratio: ExtReal): (r: CameraInfo)
    ensures r.width == width && r.height == height
    ensures r.header == info.header && r.distortionModel == info.distortionModel
    ensures r.d == info.d && r.r == info.r
    ensures forall i :: 0 <= i < 9 ==>
              r.k[i] == (if i in {0, 2, 4, 5} then Mul(info.k[i], ratio) else info.k[i])
    ensures forall i :: 0 <= i < 12 ==>
              r.p[i] == (if i in {0, 2, 5, 6} then Mul(info.p[i], ratio) else info.p[i])
  {
    var k := info.k;
    var p := info.p;
    info.(
      width := width,
      height := height,
      k := [Mul(k[0], ratio), k[1], Mul(k[2], ratio), k[3], Mul(k[4], ratio), Mul(k[5], ratio), k[6], k[7], k[8]],
      p := [Mul(p[0], ratio), p[1], Mul(p[2], ratio), p[3], p[4], Mul(p[5], ratio), Mul(p[6], ratio),
            p[7], p[8], p[9], p[10], p[11]])
  }

  /** Rescaling by a positive ratio and then by its reciprocal, back to the
      original size, gives the original calibration. */
  lemma {:induction false} RescaleRoundTrip(info: CameraInfo, width: nat, height: nat, ratio: real)
    requires ratio > 0.0
    ensures RescaleInfo(RescaleInfo(info, width, height, Finite(ratio)), info.width, info.height, Finite(1.0 / ratio)) == info
  {
    var back := RescaleInfo(RescaleInfo(info, width, height, Finite(ratio)), info.width, info.height, Finite(1.0 / ratio));
    forall i | 0 <= i < 9
      ensures back.k[i] == info.k[i]
    {
      ScaleUnscale(info.k[i], ratio);
    }
    forall i | 0 <= i < 12
      ensures back.p[i] == info.p[i]
    {
      ScaleUnscale(info.p[i], ratio);
    }
  }

  lemma ProductSign(e: real, w: real)
    requires w > 0.0
    ensures e > 0.0 ==> e * w > 0.0
    ensures e < 0.0 ==> e * w < 0.0
  {
  }

  /** An intensity frame half as wide as the depth frame doubles the focal
      lengths and principal point of K and P. */
  lemma HalfWidthDoublesIntrinsics(info: CameraInfo, depth: Image, intensity: Image)
    requires intensity.width > 0 && depth.width == 2 * intensity.width
    ensures var r := RescaleInfo(info, depth.width, depth.height, WidthRatio(depth, intensity));
            && r.k[0] == Mul(info.k[0], Finite(2.0)) && r.k[2] == Mul(info.k[2], Finite(2.0))
            && r.p[0] == Mul(info.p[0], Finite(2.0)) && r.p[2] == Mul(info.p[2], Finite(2.0))
  {
    var dw := depth.width as real;
    var iw := intensity.width as real;
    assert dw == 2.0 * iw && iw > 0.0;
    var ratio := Div(Finite(dw), Finite(iw));
    assert ratio.Finite? && ratio.v * iw == dw;
    var e := ratio.v - 2.0;
    assert e * iw == 0.0;
    ProductSign(e, iw);
    assert ratio == Finite(2.0);
    assert WidthRatio(depth, intensity) == ratio;
    var r := RescaleInfo(info, depth.width, depth.height, ratio);
    assert r.k[0] == Mul(info.k[0], ratio) && r.k[2] == Mul(info.k[2], ratio);
    assert r.p[0] == Mul(info.p[0], ratio) && r.p[2] == Mul(info.p[2], ratio);
  }

  // ---------------------------------------------------------------------------
  // Intensity reconciliation

  /** The bound of a 32-bit int: values lie in [-INT_LIMIT, INT_LIMIT). */
  const INT_LIMIT: int := 0x8000_0000

  /** The float-to-int conversion of the crop row count: truncation toward
      zero, None when the value is not finite or its truncation does not fit in
      an int (the conversion is undefined then). */
  function Truncate(x: ExtReal): (r: Option<int>)
    ensures r.Some? <==> x.Finite? && -(INT_LIMIT as real) - 1.0 < x.v < INT_LIMIT as real
    ensures r.Some? ==> -INT_LIMIT <= r.value < INT_LIMIT
    ensures r.Some? && x.v >= 0.0 ==> r.value as real <= x.v < r.value as real + 1.0
    ensures r.Some? && x.v < 0.0 ==> x.v <= r.value as real < x.v + 1.0
  {
    if !x.Finite? then None
    else
      var t := if x.v >= 0.0 then x.v.Floor else -((-x.v).Floor);
      if -INT_LIMIT <= t < INT_LIMIT then Some(t) else None
  }

  /** The rows of the intensity image kept before resizing: depth height / ratio,
      truncated to int. */
  function CropRows(depthHeight: nat, ratio: ExtReal): (r: Option<int>)
    ensures ratio.NaN? || ratio == Zero ==> r.None?
    ensures IsInfinite(ratio) ==> r == Some(0)
    ensures ratio.Finite? && ratio.v > 0.0 && depthHeight as real < (INT_LIMIT as real) * ratio.v ==> r.Some?
    ensures ratio.Finite? && ratio.v > 0.0 && r.Some? ==>
              && 0 <= r.value
              && r.value as real * ratio.v <= depthHeight as real < (r.value as real + 1.0) * ratio.v
  {
    var q := Div(Finite(depthHeight as real), ratio);
    var r := Truncate(q);
    if ratio.Finite? && ratio.v > 0.0 && r.Some? then
      CropBounds(depthHeight as real, ratio.v, q.v, r.value);
      r
    else r
  }

  /** A truncated quotient q = h / ratio of a non-negative h by a positive ratio
      is a non-negative t with t·ratio <= h < (t + 1)·ratio. */
  lemma CropBounds(h: real, ratio: real, q: real, t: int)
    requires ratio > 0.0 && h >= 0.0 && q * ratio == h
    requires q >= 0.0 ==> t as real <= q < t as real + 1.0
    requires q < 0.0 ==> q <= t as real < q + 1.0
    ensures 0 <= t
    ensures t as real * ratio <= h < (t as real + 1.0) * ratio
  {
    ProductSign(q, ratio);
    assert q >= 0.0;
    var below, above := q - t as real, t as real + 1.0 - q;
    ProductSign(below, ratio);
    ProductSign(above, ratio);
    assert below * ratio == h - t as real * ratio;
    assert above > 0.0 && above * ratio > 0.0;
    assert above * ratio == (t as real + 1.0) * ratio - h;
  }

  /** In exact arithmetic, an intensity frame with the depth frame's aspect ratio
      keeps all its rows: depth height / (depth width / intensity width) is the
      intensity height. */
  lemma {:induction false} CropKeepsAllRowsAtSameAspect(depth: Image, intensity: Image)
    requires depth.width > 0 && intensity.width > 0
    requires depth.height * intensity.width == intensity.height * depth.width
    requires intensity.height < INT_LIMIT
    ensures CropRows(depth.height, WidthRatio(depth, intensity)) == Some(intensity.height)
  {
    var dw, iw := depth.width as real, intensity.width as real;
    var dh, ih := depth.height as real, intensity.height as real;
    var ratio := WidthRatio(depth, intensity);
    assert ratio.v * iw == dw;
    ProductSign(ratio.v, iw);
    assert ratio.v > 0.0;
    var q := Div(Finite(dh), ratio);
    assert q.v * ratio.v == dh;
    assert dh * iw == ih * dw;
    assert (ih * ratio.v) * iw == ih * dw;
    assert (ih * ratio.v - dh) * iw == 0.0;
    assert ih * ratio.v == dh;
    assert (q.v - ih) * ratio.v == 0.0;
    assert q == Finite(ih);
  }

  /** toCvCopy into `encoding`: the copy has that encoding and the source's
      header and size. */
  function CopyAs(bridge: Bridge, image: Image, encoding: string): (r: Option<Image>)
    ensures r.Some? ==> r.value.encoding == encoding && r.value.header == image.header
    ensures r.Some? ==> r.value.height == image.height && r.value.width == image.width
    ensures r.Some? <==> bridge.copy(image, encoding).Some?
  {
    match bridge.copy(image, encoding)
    case None => None
    case Some(c) => Some(c.(header := image.header, encoding := encoding, height := image.height, width := image.width))
  }

  /** The resized intensity image (lines 159-164): the library's result carries
      the source header and encoding and has the depth frame's size. */
  function ResizedImage(depth: Image, intensity: Image, img: Image): (r: Image)
    ensures r.header == intensity.header && r.encoding == intensity.encoding
    ensures r.width == depth.width && r.height == depth.height
    ensures r.data == img.data && r.step == img.step
  {
    img.(header := intensity.header, encoding := intensity.encoding, height := depth.height, width := depth.width)
  }

  /** Frames of equal size keep the calibration and the intensity image; frames
      of different size get a rescaled calibration and an intensity image resized
      to the depth frame, converted to MONO8 unless it was MONO8 or MONO16. */
  function Reconcile(depth: Image, intensity: Image, info: CameraInfo, bridge: Bridge): (r: Result<Reconciled, Stop>)
    ensures depth.width == intensity.width && depth.height == intensity.height ==>
              r == Success(Reconciled(info, intensity))
    ensures depth.width != intensity.width || depth.height != intensity.height ==>
              && (!bridge.share(intensity) <==> r == Failure(Dropped(IntensityShareFailed)))
              && (r.Success? ==> r.value.camera == RescaleInfo(info, depth.width, depth.height, WidthRatio(depth, intensity)))
              && (r.Success? ==> r.value.intensity.header == intensity.header)
              && (r.Success? ==> r.value.intensity.encoding ==
                                   if intensity.encoding == MONO8 || intensity.encoding == MONO16
                                   then intensity.encoding else MONO8)
    ensures depth.width != intensity.width || depth.height != intensity.height ==>
              var rows := CropRows(depth.height, WidthRatio(depth, intensity));
              && (r == Failure(Aborted(CropUndefined)) <==> bridge.share(intensity) && rows.None?)
              && (r == Failure(Aborted(ResizeFailed)) <==>
                    bridge.share(intensity) && rows.Some? &&
                    bridge.resize(intensity, rows.value, depth.width, depth.height).None?)
    ensures depth.width != intensity.width || depth.height != intensity.height ==>
              var rows := CropRows(depth.height, WidthRatio(depth, intensity));
              bridge.share(intensity) && rows.Some? &&
              bridge.resize(intensity, rows.value, depth.width, depth.height).Some? ==>
                var m := ResizedImage(depth, intensity, bridge.resize(intensity, rows.value, depth.width, depth.height).value);
                && (intensity.encoding == MONO8 || intensity.encoding == MONO16 ==> r.Success? && r.value.intensity == m)
                && (intensity.encoding != MONO8 && intensity.encoding != MONO16 ==>
                      && (r == Failure(Aborted(ResizeCopyFailed)) <==> bridge.copy(m, MONO8).None?)
                      && (r.Success? ==> Some(r.value.intensity) == CopyAs(bridge, m, MONO8)))
    ensures r.Success? ==> r.value.intensity.width == depth.width && r.value.intensity.height == depth.height
    ensures r.Failure? ==> r.error == Dropped(IntensityShareFailed) || r.error.Aborted?
  {
    if depth.width == intensity.width && depth.height == intensity.height then
      Success(Reconciled(info, intensity))
    else
      var ratio := WidthRatio(depth, intensity);
      var camera := RescaleInfo(info, depth.width, depth.height, ratio);
      if !bridge.share(intensity) then Failure(Dropped(IntensityShareFailed))
      else match CropRows(depth.height, ratio)
        case None => Failure(Aborted(CropUndefined))
        case Some(rows) =>
          match bridge.resize(intensity, rows, depth.width, depth.height)
          case None => Failure(Aborted(ResizeFailed))
          case Some(img) =>
            var resized := ResizedImage(depth, intensity, img);
            if intensity.encoding == MONO8 || intensity.encoding == MONO16 then
              Success(Reconciled(camera, resized))
            else match CopyAs(bridge, resized, MONO8)
              case None => Failure(Aborted(ResizeCopyFailed))
              case Some(m) => Success(Reconciled(camera, m))
  }

  /** The calibration used is the one received when the sizes agree and the
      rescaled copy otherwise; the intensity image then has the depth frame's size. */
  lemma ReconcileCamera(depth: Image, intensity: Image, info: CameraInfo, bridge: Bridge)
    ensures var r := Reconcile(depth, intensity, info, bridge);
            r.Success? ==>
              && (depth.width == intensity.width && depth.height == intensity.height ==>
                    r.value.camera == info && r.value.intensity == intensity)
              && (depth.width != intensity.width || depth.height != intensity.height ==>
                    r.value.camera == RescaleInfo(info, depth.width, depth.height, WidthRatio(depth, intensity)))
              && r.value.intensity.width == depth.width && r.value.intensity.height == depth.height
  {
  }

  // ---------------------------------------------------------------------------
  // Intensity normalisation (line 179)

  /** The guard as written: `enc != MONO8 || enc != MONO16`. */
  predicate NeedsMono8AsWritten(encoding: string) {
    encoding != MONO8 || encoding != MONO16
  }

  /** The guard the comment above it describes: convert unless MONO8 or MONO16. */
  predicate NeedsMono8Intended(encoding: string) {
    encoding != MONO8 && encoding != MONO16
  }

  /** No encoding is both MONO8 and MONO16, so the written guard always holds. */
  lemma AsWrittenGuardAlwaysHolds(encoding: string)
    ensures NeedsMono8AsWritten(encoding)
  {
    assert MONO8 != MONO16 by {
      assert |MONO8| != |MONO16|;
    }
  }

  /** Convert the intensity image to MONO8 when the guard asks for it. */
  function Normalise(guard: string -> bool, intensity: Image, bridge: Bridge): (r: Result<Image, Stop>)
    ensures r.Success? && guard(intensity.encoding) ==> r.value.encoding == MONO8
    ensures !guard(intensity.encoding) ==> r == Success(intensity)
    ensures r.Failure? <==> guard(intensity.encoding) && bridge.copy(intensity, MONO8).None?
    ensures r.Failure? ==> r.error == Dropped(IntensityConversionFailed)
    ensures guard(intensity.encoding) && r.Success? ==> Some(r.value) == CopyAs(bridge, intensity, MONO8)
  {
    if guard(intensity.encoding) then
      match CopyAs(bridge, intensity, MONO8)
      case None => Failure(Dropped(IntensityConversionFailed))
      case Some(m) => Success(m)
    else
      Success(intensity)
  }

  // ---------------------------------------------------------------------------
  // Cloud layout and dispatch

  /** Four FLOAT32 fields, one element each: x, y, z, intensity. */
  const XyziFields: seq<PointField> := [
    PointField("x", FLOAT32, 1),
    PointField("y", FLOAT32, 1),
    PointField("z", FLOAT32, 1),
    PointField("intensity", FLOAT32, 1)]

  /** The cloud takes the depth frame's header and size, is neither dense nor
      big-endian, and has the four xyzi fields. */
  function CloudLayout(depth: Image): (c: PointCloud)
    ensures c.header == depth.header && c.height == depth.height && c.width == depth.width
    ensures !c.isDense && !c.isBigendian
    ensures |c.fields| == 4
    ensures forall i :: 0 <= i < 4 ==> c.fields[i].dataType == FLOAT32 && c.fields[i].count == 1
    ensures c.fields[0].name == "x" && c.fields[1].name == "y" && c.fields[2].name == "z"
    ensures c.fields[3].name == "intensity"
  {
    PointCloud(depth.header, depth.height, depth.width, false, false, XyziFields)
  }

  /** The depth conversion branch for an encoding. */
  function DepthSamples(encoding: string): (r: Option<SampleType>)
    ensures r.Some? <==> SupportedDepthEncoding(encoding)
    ensures r == Some(UInt16) <==> encoding == TYPE_16UC1
    ensures r == Some(Float32) <==> encoding == TYPE_32FC1
  {
    if encoding == TYPE_16UC1 then Some(UInt16)
    else if encoding == TYPE_32FC1 then Some(Float32)
    else None
  }

  /** The intensity conversion branch for an encoding. */
  function IntensitySamples(encoding: string): (r: Option<SampleType>)
    ensures r.Some? <==> encoding in {MONO8, MONO16, TYPE_16UC1, TYPE_32FC1}
    ensures r == Some(UInt8) <==> encoding == MONO8
    ensures r == Some(UInt16) <==> encoding == MONO16 || encoding == TYPE_16UC1
    ensures r == Some(Float32) <==> encoding == TYPE_32FC1
  {
    if encoding == MONO8 then Some(UInt8)
    else if encoding == MONO16 then Some(UInt16)
    else if encoding == TYPE_16UC1 then Some(UInt16)
    else if encoding == TYPE_32FC1 then Some(Float32)
    else None
  }

  /** Everything after the frame-id check, with the normalisation guard as a
      parameter. */
  function Process(guard: string -> bool, depth: Image, intensityIn: Image, info: CameraInfo,
                   invalidDepth: ExtReal, bridge: Bridge): (r: Result<Publication, Stop>)
    ensures var rec := Reconcile(depth, intensityIn, info, bridge);
            rec.Failure? ==> r == Failure(rec.error)
    ensures Reconcile(depth, intensityIn, info, bridge).Success? && r.Failure? ==> r.error.Dropped?
    ensures var rec := Reconcile(depth, intensityIn, info, bridge);
            r.Success? <==>
              && rec.Success?
              && Normalise(guard, rec.value.intensity, bridge).Success?
              && SupportedDepthEncoding(depth.encoding)
              && IntensitySamples(Normalise(guard, rec.value.intensity, bridge).value.encoding).Some?
    ensures r.Success? ==>
              && r.value.cloud == CloudLayout(depth)
              && r.value.depthCall == DepthCall(DepthSamples(depth.encoding).value, depth,
                                                Reconcile(depth, intensityIn, info, bridge).value.camera, invalidDepth)
              && Some(r.value.intensityCall.samples) == IntensitySamples(r.value.intensityCall.image.encoding)
              && Success(r.value.intensityCall.image) ==
                   Normalise(guard, Reconcile(depth, intensityIn, info, bridge).value.intensity, bridge)
  {
    var reconciled :- Reconcile(depth, intensityIn, info, bridge);
    var intensity :- Normalise(guard, reconciled.intensity, bridge);
    var cloud := CloudLayout(depth);
    var depthSamples :- DepthSamples(depth.encoding).ToResult(Dropped(UnsupportedDepthEncoding));
    var intensitySamples :- IntensitySamples(intensity.encoding).ToResult(Dropped(UnsupportedIntensityEncoding));
    Success(Publication(cloud,
                        DepthCall(depthSamples, depth, reconciled.camera, invalidDepth),
                        IntensityCall(intensitySamples, intensity)))
  }

  /** The frame callback with a given normalisation guard. A frame-id mismatch
      only sets the warning flag. */
  function ImageCb(guard: string -> bool, depth: Image, intensityIn: Image, info: CameraInfo,
                   invalidDepth: ExtReal, bridge: Bridge): (r: CallbackResult)
    ensures r.frameIdWarning <==> depth.header.frameId != intensityIn.header.frameId
    ensures r.outcome == Process(guard, depth, intensityIn, info, invalidDepth, bridge)
    ensures r.outcome.Success? ==> r.outcome.value.cloud == CloudLayout(depth) && SupportedDepthEncoding(depth.encoding)
    ensures !SupportedDepthEncoding(depth.encoding) ==> r.outcome.Failure?
  {
    CallbackResult(depth.header.frameId != intensityIn.header.frameId,
                   Process(guard, depth, intensityIn, info, invalidDepth, bridge))
  }

  /** The callback as written. */
  function ImageCbAsWritten(depth: Image, intensityIn: Image, info: CameraInfo,
                            invalidDepth: ExtReal, bridge: Bridge): (r: CallbackResult)
    ensures r.frameIdWarning <==> depth.header.frameId != intensityIn.header.frameId
    ensures r.outcome.Success? ==>
              r.outcome.value.intensityCall.image.encoding == MONO8 && r.outcome.value.intensityCall.samples == UInt8
  {
    assert |MONO8| != |MONO16|;
    ImageCb(NeedsMono8AsWritten, depth, intensityIn, info, invalidDepth, bridge)
  }

  /** The callback with the guard its comment describes. */
  function ImageCbIntended(depth: Image, intensityIn: Image, info: CameraInfo,
                           invalidDepth: ExtReal, bridge: Bridge): (r: CallbackResult)
    ensures r.frameIdWarning <==> depth.header.frameId != intensityIn.header.frameId
    ensures r.outcome.Success? ==>
              var call := r.outcome.value.intensityCall;
              || (call.image.encoding == MONO8 && call.samples == UInt8)
              || (call.image.encoding == MONO16 && call.samples == UInt16)
  {
    ImageCb(NeedsMono8Intended, depth, intensityIn, info, invalidDepth, bridge)
  }

  // ---------------------------------------------------------------------------
  // Properties of the callback

  /** Whatever the guard: a published cloud has the depth header, size, flags
      and the xyzi fields; the depth conversion ran on a supported depth
      encoding with the reconciled calibration and the invalid-depth value; the
      intensity conversion ran on an image of the depth frame's size. */
  lemma PublishedCloud(guard: string -> bool, depth: Image, intensityIn: Image, info: CameraInfo,
                       invalidDepth: ExtReal, bridge: Bridge)
    ensures var r := ImageCb(guard, depth, intensityIn, info, invalidDepth, bridge).outcome;
            r.Success? ==>
              && r.value.cloud == CloudLayout(depth)
              && r.value.cloud.header == depth.header
              && SupportedDepthEncoding(depth.encoding)
              && r.value.depthCall.image == depth
              && r.value.depthCall.invalidDepth == invalidDepth
              && r.value.depthCall.camera == Reconcile(depth, intensityIn, info, bridge).value.camera
              && r.value.intensityCall.image.width == depth.width
              && r.value.intensityCall.image.height == depth.height
  {
    ReconcileCamera(depth, intensityIn, info, bridge);
  }

  /** As written, every published frame went through the MONO8 conversion: the
      intensity image is MONO8 and the 8-bit branch ran, so the MONO16, 16UC1
      and 32FC1 branches are never reached. */
  lemma AsWrittenIntensityIsMono8(depth: Image, intensityIn: Image, info: CameraInfo,
                                  invalidDepth: ExtReal, bridge: Bridge)
    ensures var r := ImageCbAsWritten(depth, intensityIn, info, invalidDepth, bridge).outcome;
            r.Success? ==>
              r.value.intensityCall.image.encoding == MONO8 && r.value.intensityCall.samples == UInt8
  {
    var rec := Reconcile(depth, intensityIn, info, bridge);
    if rec.Success? {
      AsWrittenGuardAlwaysHolds(rec.value.intensity.encoding);
    }
  }

  /** As written, frames of equal size are published exactly when the depth
      encoding is supported and the MONO8 copy of the intensity image succeeds;
      the frame ids play no part. */
  lemma AsWrittenSameSizePublishes(depth: Image, intensityIn: Image, info: CameraInfo,
                                   invalidDepth: ExtReal, bridge: Bridge)
    requires depth.width == intensityIn.width && depth.height == intensityIn.height
    ensures ImageCbAsWritten(depth, intensityIn, info, invalidDepth, bridge).outcome.Success? <==>
              SupportedDepthEncoding(depth.encoding) && bridge.copy(intensityIn, MONO8).Some?
  {
    AsWrittenGuardAlwaysHolds(intensityIn.encoding);
  }

  /** As written, a MONO16 intensity frame, of any size, is never
      published as MONO16: it is reduced to 8 bits or dropped. */
  lemma AsWrittenReducesMono16(depth: Image, intensityIn: Image, info: CameraInfo,
                               invalidDepth: ExtReal, bridge: Bridge)
    requires intensityIn.encoding == MONO16
    ensures var r := ImageCbAsWritten(depth, intensityIn, info, invalidDepth, bridge).outcome;
            r.Success? ==> r.value.intensityCall.samples == UInt8 && r.value.intensityCall.image != intensityIn
  {
    AsWrittenIntensityIsMono8(depth, intensityIn, info, invalidDepth, bridge);
    assert |MONO8| != |MONO16|;
  }

  /** With the intended guard, a frame of the depth frame's size in MONO8 or
      MONO16 is used as received and reaches the 8-bit or 16-bit branch; any
      other encoding goes through the MONO8 conversion. */
  lemma IntendedKeepsSupportedIntensity(depth: Image, intensityIn: Image, info: CameraInfo,
                                        invalidDepth: ExtReal, bridge: Bridge)
    requires depth.width == intensityIn.width && depth.height == intensityIn.height
    requires SupportedDepthEncoding(depth.encoding)
    ensures var r := ImageCbIntended(depth, intensityIn, info, invalidDepth, bridge).outcome;
            && (intensityIn.encoding == MONO16 ==>
                  r.Success? && r.value.intensityCall == IntensityCall(UInt16, intensityIn))
            && (intensityIn.encoding == MONO8 ==>
                  r.Success? && r.value.intensityCall == IntensityCall(UInt8, intensityIn))
            && (intensityIn.encoding != MONO8 && intensityIn.encoding != MONO16 ==>
                  (r.Success? <==> bridge.copy(intensityIn, MONO8).Some?))
  {
  }

  /** An unsupported depth encoding never publishes, whatever the guard. */
  lemma UnsupportedDepthNeverPublishes(guard: string -> bool, depth: Image, intensityIn: Image, info: CameraInfo,
                                       invalidDepth: ExtReal, bridge: Bridge)
    requires !SupportedDepthEncoding(depth.encoding)
    ensures ImageCb(guard, depth, intensityIn, info, invalidDepth, bridge).outcome.Failure?
  {
  }

  /** A frame-id mismatch only warns: relabelling the intensity frame with the
      depth frame's id clears the warning and, for a bridge that ignores headers
      and frames of equal size, leaves the publish decision unchanged. */
  lemma FrameIdMismatchOnlyWarns(depth: Image, intensityIn: Image, info: CameraInfo,
                                 invalidDepth: ExtReal, bridge: Bridge)
    requires depth.width == intensityIn.width && depth.height == intensityIn.height
    ensures var relabelled := intensityIn.(header := intensityIn.header.(frameId := depth.header.frameId));
            var r := ImageCbAsWritten(depth, intensityIn, info, invalidDepth, bridge);
            var r2 := ImageCbAsWritten(depth, relabelled, info, invalidDepth, bridge);
            && !r2.frameIdWarning
            && (bridge.copy(intensityIn, MONO8).Some? == bridge.copy(relabelled, MONO8).Some? ==>
                  r.outcome.Success? == r2.outcome.Success?)
  {
    AsWrittenSameSizePublishes(depth, intensityIn, info, invalidDepth, bridge);
    var relabelled := intensityIn.(header := intensityIn.header.(frameId := depth.header.frameId));
    AsWrittenSameSizePublishes(depth, relabelled, info, invalidDepth, bridge);
  }
}

=== FILE: subscription.dfy ===
/** Demand-driven subscription: each node subscribes to its inputs only while
    its publisher has at least one matched subscriber. The matched callback is
    one atomic transition (the mutex that serialises it is not modelled). */
module Subscription {

  datatype Channel = DepthChannel | IntensityChannel | InfoChannel

  /** What the callback did to the input subscribers. */
  datatype Action = Subscribe | Unsubscribe | Keep

  datatype Transition = Transition(subscribed: set<Channel>, action: Action)

  /** The inputs of the disparity node: depth image and camera info. */
  const DisparityInputs: set<Channel> := {DepthChannel, InfoChannel}

  /** The inputs of the point-cloud node: depth, intensity and camera info. */
  const CloudInputs: set<Channel> := {DepthChannel, IntensityChannel, InfoChannel}

  /** A node whose input set this is: the depth channel gates resubscription. */
  predicate GatedInputs(inputs: set<Channel>) {
    DepthChannel in inputs
  }

  /** The states reachable from "nothing subscribed": all inputs or none. */
  predicate Reachable(inputs: set<Channel>, subscribed: set<Channel>) {
    subscribed == {} || subscribed == inputs
  }

  /** The matched callback for a new subscriber count. */
  function OnMatched(inputs: set<Channel>, subscribed: set<Channel>, count: nat): (t: Transition)
    ensures t.subscribed - inputs == subscribed - inputs
    ensures count == 0 ==> t.subscribed !! inputs && t.action == Unsubscribe
    ensures t.action == Subscribe <==> count > 0 && DepthChannel !in subscribed
    ensures t.action == Subscribe ==> inputs <= t.subscribed
    ensures t.action == Keep <==> count > 0 && DepthChannel in subscribed
    ensures t.action == Keep ==> t.subscribed == subscribed
  {
    if count == 0 then
      Transition(subscribed - inputs, Unsubscribe)
    else if DepthChannel !in subscribed then
      Transition(subscribed + inputs, Subscribe)
    else
      Transition(subscribed, Keep)
  }

  /** From a reachable state, one event leaves every input subscribed exactly
      when the count is positive, and the state stays reachable. */
  lemma OnMatchedFollowsDemand(inputs: set<Channel>, subscribed: set<Channel>, count: nat)
    requires GatedInputs(inputs) && Reachable(inputs, subscribed)
    ensures OnMatched(inputs, subscribed, count).subscribed == (if count > 0 then inputs else {})
  {
  }

  /** Delivering the same count twice changes nothing the second time, and the
      second delivery never subscribes again. */
  lemma OnMatchedIdempotent(inputs: set<Channel>, subscribed: set<Channel>, count: nat)
    requires GatedInputs(inputs)
    ensures var once := OnMatched(inputs, subscribed, count);
            var twice := OnMatched(inputs, once.subscribed, count);
            twice.subscribed == once.subscribed && twice.action != Subscribe
  {
  }

  /** The states and actions of a sequence of matched events: one action per
      event, channels outside the inputs untouched, and all-or-none kept. */
  function Run(inputs: set<Channel>, subscribed: set<Channel>, counts: seq<nat>): (r: (set<Channel>, seq<Action>))
    ensures |r.1| == |counts|
    ensures r.0 - inputs == subscribed - inputs
    ensures GatedInputs(inputs) && Reachable(inputs, subscribed) ==> Reachable(inputs, r.0)
    decreases |counts|
  {
    if counts == [] then (subscribed, [])
    else
      var t := OnMatched(inputs, subscribed, counts[0]);
      var rest := Run(inputs, t.subscribed, counts[1..]);
      (rest.0, [t.action] + rest.1)
  }

  /** Event `i` of `counts` raises demand from zero: its count is positive and
      the previous count (or, for the first event, the starting state) is zero. */
  predicate RisingEdge(subscribed: set<Channel>, counts: seq<nat>, i: nat)
    requires i < |counts|
  {
    counts[i] > 0 && (if i == 0 then subscribed == {} else counts[i - 1] == 0)
  }

  /** A subscription happens exactly on a rising edge of demand, so a repeated
      positive count never subscribes twice. */
  lemma {:induction false} SubscribeOnRisingEdge(inputs: set<Channel>, subscribed: set<Channel>, counts: seq<nat>)
    requires GatedInputs(inputs) && Reachable(inputs, subscribed)
    ensures forall i :: 0 <= i < |counts| ==>
              (Run(inputs, subscribed, counts).1[i] == Subscribe <==> RisingEdge(subscribed, counts, i))
    decreases |counts|
  {
    if counts != [] {
      var t := OnMatched(inputs, subscribed, counts[0]);
      OnMatchedFollowsDemand(inputs, subscribed, counts[0]);
      SubscribeOnRisingEdge(inputs, t.subscribed, counts[1..]);
      var r := Run(inputs, subscribed, counts);
      var rest := Run(inputs, t.subscribed, counts[1..]);
      assert r.1 == [t.action] + rest.1;
      assert subscribed == {} <==> DepthChannel !in subscribed;
      assert r.1[0] == Subscribe <==> RisingEdge(subscribed, counts, 0);
      forall i | 1 <= i < |counts|
        ensures r.1[i] == Subscribe <==> RisingEdge(subscribed, counts, i)
      {
        assert r.1[i] == rest.1[i - 1];
        assert rest.1[i - 1] == Subscribe <==> RisingEdge(t.subscribed, counts[1..], i - 1);
        if i - 1 == 0 {
          assert t.subscribed == {} <==> counts[0] == 0;
        } else {
          assert counts[1..][i - 2] == counts[i - 1];
        }
      }
    }
  }

  /** After a non-empty run from a reachable state, the inputs are subscribed
      exactly when the last reported count is positive. */
  lemma {:induction false} RunEndsOnDemand(inputs: set<Channel>, subscribed: set<Channel>, counts: seq<nat>)
    requires GatedInputs(inputs) && Reachable(inputs, subscribed) && counts != []
    ensures Run(inputs, subscribed, counts).0 == (if counts[|counts| - 1] > 0 then inputs else {})
    decreases |counts|
  {
    var t := OnMatched(inputs, subscribed, counts[0]);
    OnMatchedFollowsDemand(inputs, subscribed, counts[0]);
    if |counts| > 1 {
      RunEndsOnDemand(inputs, t.subscribed, counts[1..]);
      assert counts[1..][|counts[1..]| - 1] == counts[|counts| - 1];
    }
  }

  /** Counts 0, 1, 0 on the disparity node: one unsubscribe (a no-op), then one
      subscribe, then one unsubscribe. */
  lemma DisparityZeroOneZero()
    ensures Run(DisparityInputs, {}, [0, 1, 0]) == ({}, [Unsubscribe, Subscribe, Unsubscribe])
  {
    var empty: set<Channel> := {};
    var c3: seq<nat> := [0, 1, 0];
    var c2: seq<nat> := [1, 0];
    var c1: seq<nat> := [0];
    var c0: seq<nat> := [];
    assert c3[1..] == c2 && c2[1..] == c1 && c1[1..] == c0;
    assert Run(DisparityInputs, empty, c0) == (empty, []);
    assert OnMatched(DisparityInputs, DisparityInputs, 0) == Transition(empty, Unsubscribe);
    assert [Unsubscribe] + [] == [Unsubscribe];
    assert Run(DisparityInputs, DisparityInputs, c1) == (empty, [Unsubscribe]);
    assert OnMatched(DisparityInputs, empty, 1) == Transition(DisparityInputs, Subscribe);
    assert [Subscribe] + [Unsubscribe] == [Subscribe, Unsubscribe];
    assert Run(DisparityInputs, empty, c2) == (empty, [Subscribe, Unsubscribe]);
    assert OnMatched(DisparityInputs, empty, 0) == Transition(empty, Unsubscribe);
    assert [Unsubscribe] + [Subscribe, Unsubscribe] == [Unsubscribe, Subscribe, Unsubscribe];
  }

  /** Repeated positive counts on the point-cloud node subscribe once. */
  lemma CloudRepeatedDemand()
    ensures Run(CloudInputs, {}, [1, 1, 2]) == (CloudInputs, [Subscribe, Keep, Keep])
  {
    var c3: seq<nat> := [1, 1, 2];
    var c2: seq<nat> := [1, 2];
    var c1: seq<nat> := [2];
    var c0: seq<nat> := [];
    assert c3[1..] == c2 && c2[1..] == c1 && c1[1..] == c0;
    assert Run(CloudInputs, CloudInputs, c0) == (CloudInputs, []);
    assert OnMatched(CloudInputs, CloudInputs, 2) == Transition(CloudInputs, Keep);
    assert [Keep] + [] == [Keep];
    assert Run(CloudInputs, CloudInputs, c1) == (CloudInputs, [Keep]);
    assert OnMatched(CloudInputs, CloudInputs, 1) == Transition(CloudInputs, Keep);
    assert [Keep] + [Keep] == [Keep, Keep];
    assert Run(CloudInputs, CloudInputs, c2) == (CloudInputs, [Keep, Keep]);
    assert OnMatched(CloudInputs, {}, 1) == Transition(CloudInputs, Subscribe);
    assert [Subscribe] + [Keep, Keep] == [Subscribe, Keep, Keep];
  }
}

=== FILE: wrappers.dfy ===
/** Optional values and failure-carrying results, usable with `:-`. */
module Wrappers {

  /** A value that may be missing; the opaque collaborators return one of these. */
  datatype Option<+T> = None | Some(value: T) {

    /** Turns a missing value into the given failure. */
    function ToResult<E>(error: E): Result<T, E> {
      match this
      case Some(v) => Success(v)
      case None => Failure(error)
    }
  }

  /** Either a value or the reason there is none. */
  datatype Result<+T, +E> = Success(value: T) | Failure(error: E) {

    predicate IsFailure() {
      Failure?
    }

    function PropagateFailure<U>(): Result<U, E>
      requires Failure?
    {
      Failure(error)
    }

    function Extract(): T
      requires Success?
    {
      value
    }
  }
}
